=== FILE: README.md ===
# quartz-publish: a Dafny model of the publish command

quartz-publish is an Obsidian plugin. Its one command publishes the folder of
the active note as a Quartz site. This project models that command's callback
in `src/main.ts`. The callback does six things in order:

1. **Root resolution.** It walks up the active note's folders until it finds an
   `index.md` whose frontmatter has a non-empty `quartzPublishFolder`. A single
   trailing `/` is stripped first.
2. **Upload set.** It keeps every vault file whose path starts with the root's
   vault path.
3. **Title normalisation.** For every file in the upload set,
   `updateFrontmatterFields` strips a leading frontmatter block from the note
   text, finds the first `# ` heading and copies its text into the `title`
   field of the note's frontmatter.
4. **Config patch.** It builds a `sed` script that writes `quartzSiteTitle` and
   `quartzBaseUrl` into `quartz.config.ts` as `pageTitle` and `baseUrl`. Each
   quote in a value becomes `\x27`.
5. **Build and assets.** It runs `mkdir -p`, then the Quartz build, then a
   `test -f` and, when that succeeds, a `cp` for each static asset
   (`icon.png`, `og-image.png`).
6. **Report.** It shows a final notice that reflects only the build's result.

The modules follow that structure:

- `Text` and `Metadata` (`text.dfy`) hold `Option`, line terminators, the
  prefix test and frontmatter maps. A missing field reads as `""`.
- `Resolver` (`resolver.dfy`) holds the walk as a `while` loop (`ResolveRoot`),
  proved equal to a reference definition that picks the nearest qualifying
  folder (`FirstQualifying`, `Resolve`).
  - `OutputFolderOf` is the output folder one folder's index note declares
    (`src/main.ts:32-36`).
  - `Resolve` is the root at the nearest qualifying folder
    (`src/main.ts:38-41`).
- `Normalizer` (`normalizer.dfy`) writes the two regular expressions out as
  functions on characters. `FirstH1` works line by line. It is proved to agree
  with a position-by-position reading of `^# (.+)$` under the `m` flag
  (`FirstH1MatchesRegex`).
- `ConfigPatcher` (`config_patcher.dfy`) holds quote escaping and the script
  builder (`src/main.ts:62-73`):
  - `Replacements` is the two-entry replacement record.
  - `SedClause` is one `s/…/…/` clause.
  - `JoinClauses` joins the clauses with `; `.
  - `SedScript` is the whole script.
- `ProcessRunner` (`process_runner.dfy`) holds the commands given to `exec`
  and the shell's reading of a single-quoted word.
  - `Line` gives each command's exact command line (`src/main.ts:74`, 77, 80,
    89 and 90).
  - The outside world is a function `World` from the commands issued so far
    and the next command to its completion. `exec` resolves to true exactly
    when the completion carries no error.
- `Pipeline` (`pipeline.dfy`) holds the upload set and the trace of commands as
  reference functions:
  - `NormalizeOne` is one call of `updateFrontmatterFields`
    (`src/main.ts:100-112`).
  - `NormalizeAll` is the upload loop (`src/main.ts:56-59`).
  - `FrontmatterOf` is the frontmatter `processFrontMatter` hands over, which
    is empty for a note without any (`src/main.ts:104`).
  - `SedCommand` is the config patch command (`src/main.ts:74`).
  - `BuildCommand` is the build command, with Quartz's directory as its
    working directory, `/bin/bash` as its shell and the configured `PATH`
    (`src/main.ts:80-84`).
  - `ConfigureAndBuild` is the three commands issued unconditionally, in order
    (`src/main.ts:74-84`).
  - `PublishTrace` is every command a resolved root leads to, the asset loop
    included (`src/main.ts:74-92`).
  - `BuildSucceeds` is the build's result, `published` (`src/main.ts:80`).
  - `FinalNotice` is the last notice (`src/main.ts:95`).

  It also holds two classes:
  - `Vault`: the file listing, plus each note's frontmatter as a map that the
    command rewrites in place.
  - `Plugin`: the settings, the `exec` trace and the notices shown. Its
    methods mirror the callback. `Publish` is proved to leave exactly the
    state the reference functions describe.

Some behaviours of `src/main.ts` are worth spelling out:

- The upload set is a plain prefix test, so a sibling folder whose name
  extends the root's name is published too (`SiblingFolderIncluded`).
- A failed config patch does not stop the build. The sed patch, `mkdir -p`
  and the build are issued whatever the earlier commands returned. A `cp` is
  issued only after its `test -f` succeeded.
- The final notice reads only the build's result.
- The frontmatter block's `(.*?)` may be empty, so `---\n\n---\n` is a block.
  The `\r?` after each `---` lets either fence line end in `\r\n`.

## Model

| member | source | states |
|---|---|---|
| Resolver.StripTrailingSlash | src/main.ts:36 | the result is the input with at most one character removed, at its end |
| Resolver.StripTrailingSlashRemovesOne | src/main.ts:36 | exactly one appended `/` is removed |
| Resolver.StripTrailingSlashKeepsOthers | src/main.ts:36 | a value not ending in `/` is kept as is |
| Resolver.SlashAloneIsEmpty | src/main.ts:36-41 | a publish folder of `/` strips to empty, so that folder does not qualify |
| Resolver.FirstQualifying | src/main.ts:30-44 | the index returned is the nearest qualifying folder, with none before it; None exactly when no folder qualifies |
| Resolver.ResolveRoot | src/main.ts:27-48 | the loop returns the root at the nearest folder whose index note yields a non-empty output folder, with that note's frontmatter; None exactly when no folder qualifies |
| Resolver.FirstQualifyingAt | src/main.ts:30-41 | a qualifying folder with no qualifying folder before it is the one the walk stops at |
| Resolver.NonQualifyingFolderSkipped | src/main.ts:32-43 | a nearest folder with no index note, no publish folder or an empty one is passed over and the walk continues upward |
| Resolver.ResolveIgnoresFartherFolders | src/main.ts:38-41 | folders beyond the first qualifying one never change the result |
| Normalizer.FenceLength | src/main.ts:103 | 4 exactly when the text opens with `---\n`, 5 exactly when it opens with `---\r\n`, and 0 otherwise |
| Normalizer.FindClose | src/main.ts:103 | the lazy `(.*?)`: the first position of `\n---\r?\n` at or after the start, or None when there is none |
| Normalizer.StripFrontmatter | src/main.ts:103 | the body is a suffix of the note text |
| Normalizer.StripFrontmatterRemovesFirstBlock | src/main.ts:103 | the text is unchanged exactly when it has no leading block; otherwise the body starts right after the first closing fence |
| Normalizer.StripFrontmatterRemovesBlock | src/main.ts:103 | a block made of `---`, `\n` or `\r\n`, a text without `\n---`, `\n---`, and `\n` or `\r\n` is removed whole, and the text after it is kept |
| Normalizer.UnfencedTextUnchanged | src/main.ts:103 | text that does not open with `---` and a line ending is left alone |
| Normalizer.LineEnd | src/main.ts:106 | the first line terminator (`\n`, `\r`, U+2028, U+2029) at or after a position, or the end of the text |
| Normalizer.Lines | src/main.ts:106 | the text split at every line terminator: no line holds one |
| Normalizer.FirstH1 | src/main.ts:106-107 | the text after `# ` of the first line that is `# ` plus at least one character; None exactly when there is no such line |
| Normalizer.FirstH1MatchesRegex | src/main.ts:106 | the line-based search finds a match exactly when the multiline regex does, and finds the leftmost match, captured up to the end of its line |
| Normalizer.ApplyH1Title | src/main.ts:104-111 | with a heading, `title` equals its text; without one, the frontmatter is unchanged; no other key is touched |
| Normalizer.ApplyH1TitleSetsTitle | src/main.ts:107-110 | the result is the frontmatter with `title` set to the heading, whether or not it already matched |
| Normalizer.ApplyH1TitleIdempotent | src/main.ts:107-110 | applying the update a second time changes nothing |
| Normalizer.NewFrontmatter | src/main.ts:100-112 | normalising a note touches no key other than `title` |
| Normalizer.NewFrontmatterIdempotent | src/main.ts:100-112 | normalising a note twice equals normalising it once |
| ConfigPatcher.EscapeQuotes | src/main.ts:72 | no `'` or `"` remains, and the value grows by three characters per quote |
| ConfigPatcher.EscapeQuotesAt | src/main.ts:71-72 | each quote becomes `\x27` and every other character is kept, in order, at its shifted position |
| ConfigPatcher.EscapeQuotesKeepsQuoteFree | src/main.ts:72 | a value without quotes is inserted verbatim |
| ConfigPatcher.SedScriptShape | src/main.ts:62-73 | the script is the `pageTitle` clause for `quartzSiteTitle`, then `; `, then the `baseUrl` clause for `quartzBaseUrl` |
| ConfigPatcher.MissingFieldsWriteEmptyValues | src/main.ts:63-64 | missing fields are written as empty quoted values |
| ConfigPatcher.SedClauseQuoteFree | src/main.ts:70-72 | a clause holds no single quote, whatever the value |
| ConfigPatcher.SedScriptQuoteFree | src/main.ts:66-74 | the whole script holds no single quote, so no metadata can end the quoted `sed` argument |
| ProcessRunner.QuotedWord | src/main.ts:74 | the shell's single-quoted word: a prefix free of `'`, ending just before the next `'` |
| ProcessRunner.QuotedWordOf | src/main.ts:74 | a word free of `'`, followed by `'`, is read back whole |
| Pipeline.UploadFiles | src/main.ts:55 | a file is in the upload set exactly when it is in the listing and its path starts with the root's vault path |
| Pipeline.UploadFilesAppend | src/main.ts:55 | the filter keeps the listing order: it distributes over concatenation |
| Pipeline.UploadFilesCount | src/main.ts:55-59 | a matching file is processed as often as it is listed, any other file never |
| Pipeline.SiblingFolderIncluded | src/main.ts:55 | a file in a sibling folder whose name extends the root's name is in the upload set |
| Pipeline.UploadFilesDistinct | src/main.ts:55 | distinct vault paths stay distinct after filtering |
| Pipeline.NormalizeAllUpdates | src/main.ts:56-59 | after the loop, each processed note holds its own update applied to its original frontmatter |
| Pipeline.NormalizeAllKeepsOthers | src/main.ts:56-59 | notes outside the upload set keep their frontmatter |
| Pipeline.NormalizeAllIdempotent | src/main.ts:56-59 | publishing the same notes twice leaves the same frontmatter as publishing once |
| Pipeline.StaticSteps | src/main.ts:86-92 | the asset loop adds one to two commands per asset and keeps what came before |
| Pipeline.StaticStepAt | src/main.ts:86-92 | each asset command is a test or a copy; a copy follows the test of the same path and only a succeeding one; a succeeding test is always followed by its copy into `static/` |
| Pipeline.AssetPaths | src/main.ts:87-88 | the tested path of asset `i` is the input folder, `/`, and the asset's name |
| Pipeline.StaticStepsTestsInOrder | src/main.ts:86-92 | the asset loop tests the assets once each, in list order |
| Pipeline.PublishTraceOrder | src/main.ts:74-92 | a publish issues the sed patch, `mkdir -p`, then the build, with fixed arguments whatever any command returns, and then only tests of `icon.png` and `og-image.png`, in order, and copies, each right after the test of its own path and into the output folder's `static/` |
| Pipeline.NoticeFollowsBuildOnly | src/main.ts:80-95 | two worlds that agree on how the build completes give the same final notice, whatever the other commands returned |
| Pipeline.SedLineKeepsScript | src/main.ts:74 | the shell reads the whole script, unchanged, out of the single quotes of the sed command line |
| Pipeline.Plugin.Exec | src/main.ts:117-129 | the command is appended to the trace, and the result is true exactly when the world reports no error |
| Pipeline.Plugin.UpdateFrontmatterFields | src/main.ts:100-112 | the note's frontmatter becomes its normalised frontmatter, and no other note's changes |
| Pipeline.Plugin.UpdateUploadFiles | src/main.ts:55-59 | the files are normalised one after the other, in listing order |
| Pipeline.Plugin.ConfigureAndBuildRoot | src/main.ts:61-84 | the sed patch, `mkdir -p` and the build are issued in that order, and the build's outcome is returned |
| Pipeline.Plugin.CopyStaticFiles | src/main.ts:86-92 | the trace grows by exactly the asset loop's tests and copies |
| Pipeline.Plugin.BuildAndReport | src/main.ts:61-95 | the trace grows by the patch, `mkdir -p`, the build and the asset loop, and the notice added is the one for the build's outcome |
| Pipeline.Plugin.Publish | src/main.ts:23-96 | with no active note, nothing changes; with no root, only the no-root notice is added; otherwise the upload set is normalised, the full command trace is issued and the final notice follows the build |

## Left out

- Obsidian's host APIs are not modelled. The active note's ancestor chain,
  each folder's index note and its frontmatter, the file listing, and each
  note's text are given as values. `getFullPath` is the parameter `fullPath`.
- Frontmatter values are strings only. Non-string YAML values, YAML parsing and
  re-serialisation by `processFrontMatter`, and the link between a note's text
  and its parsed frontmatter are not modelled. A note without frontmatter reads
  as the empty map, and the model may record that empty map for it.
- The programs behind `exec` (`sed`, `mkdir`, `npx quartz build`, `test`,
  `cp`, bash) are not modelled. Their outcome is given by the `World`
  function. Their effect on the file system is not modelled, and neither is
  `sed`'s reading of the script. Values containing `/` or `&` reach `sed`
  unescaped, and the model does not say what `sed` then does.
- `mkdir -p` receives the output folder unquoted. The model records the exact
  command line; how the shell splits it is not modelled.
- On an error, `exec` logs `stderr`; otherwise it logs `stdout` when it is
  non-empty (`src/main.ts:120-124`). Neither log is modelled. `Completion`
  carries both streams, but no state depends on them.
- The timeout and `hide()` of the "Publishing folder..." notice are left out.
  Only the order of the notices shown is kept.
- The interleaving of the `async` callback with other work in Obsidian is not
  modelled. Each `await` is taken as completing before the next step.
- Neither a failure of `vault.read` or `processFrontMatter` part-way through
  the upload loop, nor a crash while `sed` rewrites the config in place, is
  modelled.
- Plugin setup is not modelled: `onload`, the command and settings-tab
  registration, `loadSettings` and `saveSettings` (`src/main.ts:13-21`,
  `src/main.ts:131-137`) and the settings tab. The settings are a value
  given to the `Plugin` constructor.

=== FILE: config_patcher.dfy ===
/** The config patcher: the `sed` script that writes the site title and base URL
    of the publish root into Quartz's `quartz.config.ts`. */
module ConfigPatcher {
  import opened Metadata

  /** The frontmatter fields of the index note that feed the config. */
  const SiteTitleField := "quartzSiteTitle"
  const BaseUrlField := "quartzBaseUrl"

  /** The config keys they replace. */
  const PageTitleKey := "pageTitle"
  const BaseUrlKey := "baseUrl"

  /** The four characters `\x27` that stand in for a quote. */
  const HexQuote := "\\x27"

  predicate IsQuote(c: char) {
    c == '\'' || c == '"'
  }

  function QuoteCount(s: string): nat {
    if s == [] then 0 else (if IsQuote(s[0]) then 1 else 0) + QuoteCount(s[1..])
  }

  /** `value.replace(/['"]/g, '\\x27')`: every quote becomes `\x27`, so the
      result holds no quote at all and grows by 3 per quote. */
  function EscapeQuotes(s: string): (r: string)
    ensures forall i :: 0 <= i < |r| ==> !IsQuote(r[i])
    ensures |r| == |s| + 3 * QuoteCount(s)
  {
    if s == [] then ""
    else (if IsQuote(s[0]) then HexQuote else [s[0]]) + EscapeQuotes(s[1..])
  }

  /** Counting the quotes of a non-empty prefix starts with its first character. */
  lemma QuoteCountPrefix(s: string, i: nat)
    requires 0 < i <= |s|
    ensures QuoteCount(s[..i]) == (if IsQuote(s[0]) then 1 else 0) + QuoteCount(s[1..][..i - 1])
  {
    assert s[..i][1..] == s[1..][..i - 1];
  }

  /** A slice of `b` read back through the concatenation `a + b`. */
  lemma SliceAfter(a: string, b: string, k: nat, n: nat)
    requires k + n <= |b|
    ensures (a + b)[|a| + k..|a| + k + n] == b[k..k + n]
  {
  }

  /** Character `i` of the value lands at `i` plus 3 per earlier quote: a quote
      as `\x27`, any other character as itself, so the order is kept. */
  lemma {:induction false} EscapeQuotesAt(s: string, i: nat)
    requires i < |s|
    ensures var p := i + 3 * QuoteCount(s[..i]);
            if IsQuote(s[i])
            then p + 4 <= |EscapeQuotes(s)| && EscapeQuotes(s)[p..p + 4] == HexQuote
            else p < |EscapeQuotes(s)| && EscapeQuotes(s)[p] == s[i]
  {
    var head := if IsQuote(s[0]) then HexQuote else [s[0]];
    var rest := EscapeQuotes(s[1..]);
    assert EscapeQuotes(s) == head + rest;
    if i == 0 {
      assert s[..0] == [];
    } else {
      EscapeQuotesAt(s[1..], i - 1);
      QuoteCountPrefix(s, i);
      assert s[1..][i - 1] == s[i];
      var q := i - 1 + 3 * QuoteCount(s[1..][..i - 1]);
      if IsQuote(s[i]) {
        SliceAfter(head, rest, q, 4);
      }
    }
  }

  /** A value without quotes is inserted verbatim. */
  lemma {:induction false} EscapeQuotesKeepsQuoteFree(s: string)
    requires forall i :: 0 <= i < |s| ==> !IsQuote(s[i])
    ensures EscapeQuotes(s) == s
  {
    if s != [] {
      EscapeQuotesKeepsQuoteFree(s[1..]);
    }
  }

  // One `s/KEY:.*/KEY: "VALUE",/` clause.
  function SedClause(key: string, value: string): string {
    "s/" + key + ":.*/" + key + ": \"" + EscapeQuotes(value) + "\",/"
  }

  /** The replacements record: `metadata?.quartzSiteTitle || ''` and
      `metadata?.quartzBaseUrl || ''`, in that order. */
  function Replacements(md: Frontmatter): seq<(string, string)> {
    [(PageTitleKey, Field(md, SiteTitleField)), (BaseUrlKey, Field(md, BaseUrlField))]
  }

  /** `Object.entries(...).map(clause).join('; ')`. */
  function JoinClauses(entries: seq<(string, string)>): string {
    if entries == [] then ""
    else if |entries| == 1 then SedClause(entries[0].0, entries[0].1)
    else SedClause(entries[0].0, entries[0].1) + "; " + JoinClauses(entries[1..])
  }

  /** The sed script for a publish root's metadata. */
  function SedScript(md: Frontmatter): string {
    JoinClauses(Replacements(md))
  }

  /** The script is the page-title clause, then the base-URL clause, joined by
      `; `, with the escaped values or `""` when a field is missing or empty. */
  lemma SedScriptShape(md: Frontmatter)
    ensures SedScript(md) == SedClause(PageTitleKey, Field(md, SiteTitleField)) + "; "
                             + SedClause(BaseUrlKey, Field(md, BaseUrlField))
  {
    var entries := Replacements(md);
    assert entries[1..] == [(BaseUrlKey, Field(md, BaseUrlField))];
    assert JoinClauses(entries[1..]) == SedClause(BaseUrlKey, Field(md, BaseUrlField));
    assert JoinClauses(entries) == SedClause(entries[0].0, entries[0].1) + "; " + JoinClauses(entries[1..]);
  }

  /** A missing field is written as an empty quoted value. */
  lemma MissingFieldsWriteEmptyValues(md: Frontmatter)
    requires SiteTitleField !in md && BaseUrlField !in md
    ensures SedScript(md) == SedClause(PageTitleKey, "") + "; " + SedClause(BaseUrlKey, "")
  {
    SedScriptShape(md);
    assert EscapeQuotes("") == "";
  }

  predicate NoSingleQuote(s: string) {
    forall i :: 0 <= i < |s| ==> s[i] != '\''
  }

  /** Joining two quote-free strings yields a quote-free string. */
  lemma NoSingleQuoteConcat(a: string, b: string)
    requires NoSingleQuote(a) && NoSingleQuote(b)
    ensures NoSingleQuote(a + b)
  {
    forall i | 0 <= i < |a + b|
      ensures (a + b)[i] != '\''
    {
      if i >= |a| {
        assert (a + b)[i] == b[i - |a|];
      }
    }
  }

  /** A clause built on a quote-free key holds no single quote, whatever the value. */
  lemma SedClauseQuoteFree(key: string, value: string)
    requires NoSingleQuote(key)
    ensures NoSingleQuote(SedClause(key, value))
  {
    var e := EscapeQuotes(value);
    NoSingleQuoteConcat("s/", key);
    NoSingleQuoteConcat("s/" + key, ":.*/");
    NoSingleQuoteConcat("s/" + key + ":.*/", key);
    NoSingleQuoteConcat("s/" + key + ":.*/" + key, ": \"");
    NoSingleQuoteConcat("s/" + key + ":.*/" + key + ": \"", e);
    NoSingleQuoteConcat("s/" + key + ":.*/" + key + ": \"" + e, "\",/");
  }

  /** No single quote can appear in the script, whatever the metadata holds:
      the script cannot close the single-quoted argument it is passed in. */
  lemma SedScriptQuoteFree(md: Frontmatter)
    ensures NoSingleQuote(SedScript(md))
  {
    SedScriptShape(md);
    SedClauseQuoteFree(PageTitleKey, Field(md, SiteTitleField));
    SedClauseQuoteFree(BaseUrlKey, Field(md, BaseUrlField));
    NoSingleQuoteConcat(SedClause(PageTitleKey, Field(md, SiteTitleField)), "; ");
    NoSingleQuoteConcat(SedClause(PageTitleKey, Field(md, SiteTitleField)) + "; ",
                        SedClause(BaseUrlKey, Field(md, BaseUrlField)));
  }
}

=== FILE: normalizer.dfy ===
/** The frontmatter normaliser (`updateFrontmatterFields`): the title of a note
    follows the first level-1 heading of its body. The three regular
    expressions involved are written out as functions on characters and lines. */
module Normalizer {
  import opened Text
  import opened Metadata

  const TitleKey := "title"

  // ---------------------------------------------------------------------------
  // Removing a leading frontmatter block: /^---\r?\n(.*?)\n---\r?\n/s
  // ---------------------------------------------------------------------------

  /** Length of a `---` line with its `\r?\n` ending at the start of `s`;
      0 when `s` does not start with one. */
  function FenceLength(s: string): (n: nat)
    ensures n == 0 || n == 4 || n == 5
    ensures n == 4 <==> "---\n" <= s
    ensures n == 5 <==> "---\r\n" <= s
    ensures n <= |s|
    ensures n > 0 ==> s[..3] == "---"
  {
    if "---\n" <= s then assert s[3] == "---\n"[3]; 4
    else if "---\r\n" <= s then 5
    else 0
  }

  /** `\n---\r?\n` starts at position `p` of `s`. */
  predicate ClosesAt(s: string, p: nat) {
    p < |s| && s[p] == '\n' && FenceLength(s[p + 1..]) > 0
  }

  /** The non-greedy `(.*?)`: the first position at or after `p` where the
      closing fence starts. */
  function FindClose(s: string, p: nat): (r: Option<nat>)
    decreases |s| - p
    ensures r.Some? ==> p <= r.value && ClosesAt(s, r.value)
    ensures r.Some? ==> forall q :: p <= q < r.value ==> !ClosesAt(s, q)
    ensures r.None? ==> forall q :: p <= q ==> !ClosesAt(s, q)
  {
    if p >= |s| then None
    else if ClosesAt(s, p) then Some(p)
    else FindClose(s, p + 1)
  }

  /** The body of a note: its text without the frontmatter block that opens it. */
  function StripFrontmatter(text: string): (body: string)
    ensures |body| <= |text| && body == text[|text| - |body|..]
  {
    var open := FenceLength(text);
    if open == 0 then text
    else
      match FindClose(text, open)
      case None => text
      case Some(p) => text[p + 1 + FenceLength(text[p + 1..])..]
  }

  /** A frontmatter block of `text` closes at `p`: `text` opens with a fence
      line and the closing `\n---\r?\n` starts at `p`, after the opening line. */
  predicate BlockClosesAt(text: string, p: nat) {
    0 < FenceLength(text) <= p && ClosesAt(text, p)
  }

  /** Where the body starts when the block closes at `p`. */
  function BlockEnd(text: string, p: nat): nat
    requires ClosesAt(text, p)
  {
    p + 1 + FenceLength(text[p + 1..])
  }

  /** The text is left alone exactly when it has no frontmatter block; otherwise
      the block ends at the FIRST closing fence, and all of it is removed. */
  lemma StripFrontmatterRemovesFirstBlock(text: string)
    ensures StripFrontmatter(text) == text <==> forall p: nat :: !BlockClosesAt(text, p)
    ensures StripFrontmatter(text) != text ==>
              exists p: nat :: BlockClosesAt(text, p)
                            && (forall q: nat :: q < p ==> !BlockClosesAt(text, q))
                            && StripFrontmatter(text) == text[BlockEnd(text, p)..]
  {
    var open := FenceLength(text);
    if open == 0 {
      assert StripFrontmatter(text) == text;
    } else {
      match FindClose(text, open)
      case None =>
        assert StripFrontmatter(text) == text;
      case Some(p) =>
        assert BlockClosesAt(text, p);
        assert StripFrontmatter(text) == text[BlockEnd(text, p)..];
        assert forall q: nat :: q < p ==> !BlockClosesAt(text, q);
    }
  }

  /** Only a block at the very start counts: text not opening with `---` plus a
      line ending is searched unchanged. */
  lemma UnfencedTextUnchanged(text: string)
    requires !("---\n" <= text) && !("---\r\n" <= text)
    ensures StripFrontmatter(text) == text
  {
  }

  /** A `---` line ended by `\n` or `\r\n` is a fence of that length. */
  lemma FenceOf(e: string, rest: string)
    requires e == "\n" || e == "\r\n"
    ensures FenceLength("---" + e + rest) == 3 + |e|
  {
    var t := "---" + e + rest;
    assert t[..3 + |e|] == "---" + e;
  }

  /** No closing fence starts inside a text without `\n---`, nor at its last
      three characters when a `\n` follows them. */
  lemma NoCloseInside(text: string, open: nat, inner: string)
    requires open + |inner| < |text| && text[open..open + |inner|] == inner && text[open + |inner|] == '\n'
    requires forall q :: 0 <= q && q + 3 < |inner| && inner[q] == '\n' ==> inner[q + 1..q + 4] != "---"
    ensures forall q :: open <= q < open + |inner| ==> !ClosesAt(text, q)
  {
    var p := open + |inner|;
    forall q | open <= q < p
      ensures !ClosesAt(text, q)
    {
      if q + 4 <= p {
        assert text[q] == text[open..p][q - open] == inner[q - open];
        var fence, within := text[q + 1..][..3], inner[q - open + 1..q - open + 4];
        forall k | 0 <= k < 3
          ensures fence[k] == within[k]
        {
          assert text[q + 1 + k] == text[open..p][q - open + 1 + k];
        }
        assert fence == within;
      } else if q + 4 <= |text| {
        assert text[q + 1..][..3][p - q - 1] == '\n';
      }
    }
  }

  /** The search from `open` stops at the first closing fence. */
  lemma FirstCloseFound(text: string, open: nat, p: nat)
    requires open <= p && ClosesAt(text, p)
    requires forall q :: open <= q < p ==> !ClosesAt(text, q)
    ensures FindClose(text, open) == Some(p)
  {
  }

  /** Where the parts of a written-out block lie in its text. */
  lemma BlockLayout(e1: string, inner: string, e2: string, body: string)
    ensures var text := "---" + e1 + inner + "\n---" + e2 + body;
            var p := 3 + |e1| + |inner|;
            && text == "---" + e1 + (inner + ("\n" + ("---" + e2 + body)))
            && p < |text| && text[3 + |e1|..p] == inner && text[p] == '\n'
            && text[p + 1..] == "---" + e2 + body
            && text[p + 1 + 3 + |e2|..] == body
  {
  }

  /** A block written out (`---`, a line ending, a text with no `\n---` in it,
      `\n---`, a line ending) is removed whole, and what follows it is kept. */
  lemma StripFrontmatterRemovesBlock(e1: string, inner: string, e2: string, body: string)
    requires e1 == "\n" || e1 == "\r\n"
    requires e2 == "\n" || e2 == "\r\n"
    requires forall q :: 0 <= q && q + 3 < |inner| && inner[q] == '\n' ==> inner[q + 1..q + 4] != "---"
    ensures StripFrontmatter("---" + e1 + inner + "\n---" + e2 + body) == body
  {
    var text := "---" + e1 + inner + "\n---" + e2 + body;
    var open := 3 + |e1|;
    var p := open + |inner|;
    BlockLayout(e1, inner, e2, body);
    FenceOf(e1, inner + ("\n" + ("---" + e2 + body)));
    FenceOf(e2, body);
    assert ClosesAt(text, p);
    NoCloseInside(text, open, inner);
    FirstCloseFound(text, open, p);
  }

  // ---------------------------------------------------------------------------
  // The first level-1 heading: /^# (.+)$/m
  // ---------------------------------------------------------------------------

  /** The first line terminator at or after `p`, or `|s|`. */
  function LineEnd(s: string, p: nat): (e: nat)
    requires p <= |s|
    decreases |s| - p
    ensures p <= e <= |s|
    ensures e < |s| ==> IsLineTerminator(s[e])
    ensures forall j :: p <= j < e ==> !IsLineTerminator(s[j])
  {
    if p == |s| || IsLineTerminator(s[p]) then p else LineEnd(s, p + 1)
  }

  /** `s` split at every line terminator (`\r\n` yields an empty line between). */
  function Lines(s: string): (lines: seq<string>)
    decreases |s|
    ensures |lines| > 0
    ensures forall i, j :: 0 <= i < |lines| && 0 <= j < |lines[i]| ==> !IsLineTerminator(lines[i][j])
  {
    var e := LineEnd(s, 0);
    if e == |s| then [s] else [s[..e]] + Lines(s[e + 1..])
  }

  /** A line of the form `# ` followed by at least one character. */
  predicate IsH1Line(line: string) {
    |line| >= 3 && line[0] == '#' && line[1] == ' '
  }

  /** The text of the first heading line, if any. */
  function FirstH1(lines: seq<string>): (h: Option<string>)
    ensures h.Some? ==> exists i :: 0 <= i < |lines| && IsH1Line(lines[i]) && h.value == lines[i][2..]
                                    && forall j :: 0 <= j < i ==> !IsH1Line(lines[j])
    ensures h.None? <==> forall i :: 0 <= i < |lines| ==> !IsH1Line(lines[i])
  {
    if lines == [] then None
    else if IsH1Line(lines[0]) then Some(lines[0][2..])
    else
      var h := FirstH1(lines[1..]);
      assert forall i :: 1 <= i < |lines| ==> lines[i] == lines[1..][i - 1];
      h
  }

  /** The regular expression's own reading, position by position: `^` (with the
      `m` flag) matches at 0 and after every line terminator... */
  ghost predicate LineStart(s: string, p: nat) {
    p == 0 || (p <= |s| && IsLineTerminator(s[p - 1]))
  }

  /** ...and `^# (.+)$` matches at `p` when `# ` and one non-terminator follow. */
  ghost predicate H1At(s: string, p: nat) {
    p + 2 < |s| && LineStart(s, p) && s[p] == '#' && s[p + 1] == ' ' && !IsLineTerminator(s[p + 2])
  }

  /** Every position up to a line's end shares that line end. */
  lemma LineEndSame(s: string, p: nat, q: nat)
    requires p <= |s| && p <= q <= LineEnd(s, p)
    ensures LineEnd(s, q) == LineEnd(s, p)
  {
  }

  /** Line ends in a suffix are the line ends of the whole text, shifted. */
  lemma {:induction false} LineEndShift(s: string, d: nat, p: nat)
    requires d + p <= |s|
    decreases |s| - d - p
    ensures LineEnd(s, d + p) == d + LineEnd(s[d..], p)
  {
    if d + p < |s| && !IsLineTerminator(s[d + p]) {
      LineEndShift(s, d, p + 1);
    }
  }

  /** Within the first line, the regular expression can match only at 0, and it
      matches there exactly when the first line is a heading line. */
  lemma FirstLineMatch(s: string)
    ensures forall p: nat :: 0 < p <= LineEnd(s, 0) ==> !H1At(s, p)
    ensures H1At(s, 0) <==> IsH1Line(s[..LineEnd(s, 0)])
    ensures H1At(s, 0) ==> s[2..LineEnd(s, 2)] == s[..LineEnd(s, 0)][2..]
  {
    var e := LineEnd(s, 0);
    assert forall p: nat :: 0 < p <= e ==> !LineStart(s, p);
    if H1At(s, 0) {
      assert 2 < e;
      LineEndSame(s, 0, 2);
    }
    if IsH1Line(s[..e]) {
      assert s[2] == s[..e][2];
    }
  }

  /** Past a terminator at `e`, matches in `s` are matches in the rest, shifted. */
  lemma H1AtShift(s: string, e: nat, q: nat)
    requires e < |s| && IsLineTerminator(s[e])
    ensures H1At(s, e + 1 + q) <==> H1At(s[e + 1..], q)
    ensures H1At(s, e + 1 + q) ==> s[e + 1 + q + 2..LineEnd(s, e + 1 + q + 2)] == s[e + 1..][q + 2..LineEnd(s[e + 1..], q + 2)]
  {
    var t := s[e + 1..];
    if q > 0 && q <= |t| {
      assert s[e + 1 + q - 1] == t[q - 1];
    }
    if H1At(s, e + 1 + q) {
      LineEndShift(s, e + 1, q + 2);
    }
  }

  /** With no match in the first line, the matches of `s` are those of the
      text `t` after the first terminator, shifted. */
  lemma RestMatches(s: string, e: nat, t: string)
    requires e == LineEnd(s, 0) < |s| && !H1At(s, 0) && t == s[e + 1..]
    ensures (forall p: nat :: !H1At(s, p)) <==> (forall p: nat :: !H1At(t, p))
  {
    FirstLineMatch(s);
    forall p: nat | p > e
      ensures H1At(s, p) <==> H1At(t, p - e - 1)
    {
      H1AtShift(s, e, p - e - 1);
    }
    forall p: nat | H1At(t, p)
      ensures H1At(s, e + 1 + p)
    {
      H1AtShift(s, e, p);
    }
  }

  /** The leftmost match of `t` is the leftmost match of `s`, with the same capture. */
  lemma RestLeftmostMatch(s: string, e: nat, t: string, p: nat)
    requires e == LineEnd(s, 0) < |s| && !H1At(s, 0) && t == s[e + 1..]
    requires H1At(t, p) && forall q: nat :: q < p ==> !H1At(t, q)
    ensures H1At(s, e + 1 + p) && forall q: nat :: q < e + 1 + p ==> !H1At(s, q)
    ensures s[e + 1 + p + 2..LineEnd(s, e + 1 + p + 2)] == t[p + 2..LineEnd(t, p + 2)]
  {
    FirstLineMatch(s);
    H1AtShift(s, e, p);
    forall q: nat | e < q < e + 1 + p
      ensures !H1At(s, q)
    {
      H1AtShift(s, e, q - e - 1);
    }
  }

  /** When the first line is a heading line it is the match. */
  lemma MatchInFirstLine(s: string)
    requires H1At(s, 0)
    ensures FirstH1(Lines(s)) == Some(s[2..LineEnd(s, 2)])
  {
    var e := LineEnd(s, 0);
    FirstLineMatch(s);
    if e == |s| {
      assert s[..e] == s;
    }
    assert Lines(s)[0] == s[..e];
  }

  /** When the first line is no heading line, the search goes on in the rest. */
  lemma SkipFirstLine(s: string, e: nat, t: string)
    requires e == LineEnd(s, 0) < |s| && !H1At(s, 0) && t == s[e + 1..]
    ensures FirstH1(Lines(s)) == FirstH1(Lines(t))
  {
    FirstLineMatch(s);
    assert Lines(s) == [s[..e]] + Lines(t);
    assert !IsH1Line(s[..e]);
  }

  /** Splitting into lines and taking the first `# ` line finds exactly what the
      regular expression finds: the leftmost match, captured up to the end of its line. */
  lemma {:induction false} FirstH1MatchesRegex(s: string)
    decreases |s|
    ensures FirstH1(Lines(s)).None? <==> forall p: nat :: !H1At(s, p)
    ensures FirstH1(Lines(s)).Some? ==>
              exists p: nat :: H1At(s, p) && (forall q: nat :: q < p ==> !H1At(s, q))
                            && FirstH1(Lines(s)).value == s[p + 2..LineEnd(s, p + 2)]
  {
    var e := LineEnd(s, 0);
    FirstLineMatch(s);
    if H1At(s, 0) {
      MatchInFirstLine(s);
      assert FirstH1(Lines(s)).value == s[0 + 2..LineEnd(s, 0 + 2)];
    } else if e == |s| {
      assert FirstH1(Lines(s)).None?;
    } else {
      var t := s[e + 1..];
      SkipFirstLine(s, e, t);
      FirstH1MatchesRegex(t);
      RestMatches(s, e, t);
      if FirstH1(Lines(t)).Some? {
        var p': nat :| H1At(t, p') && (forall q: nat :: q < p' ==> !H1At(t, q))
                  && FirstH1(Lines(t)).value == t[p' + 2..LineEnd(t, p' + 2)];
        RestLeftmostMatch(s, e, t, p');
      }
    }
  }

  // ---------------------------------------------------------------------------
  // The title update
  // ---------------------------------------------------------------------------

  /** The callback given to `processFrontMatter`: when the body has a first H1
      whose text differs from `title`, `title` is set to that text. */
  function ApplyH1Title(fm: Frontmatter, body: string): (r: Frontmatter)
    ensures FirstH1(Lines(body)).Some? ==> TitleKey in r && r[TitleKey] == FirstH1(Lines(body)).value
    ensures FirstH1(Lines(body)).None? ==> r == fm
    ensures forall k :: k != TitleKey ==> (k in r <==> k in fm) && (k in r ==> r[k] == fm[k])
  {
    match FirstH1(Lines(body))
    case None => fm
    case Some(h) => if TitleKey in fm && fm[TitleKey] == h then fm else fm[TitleKey := h]
  }

  /** Whether the title already matched or not, the outcome is the frontmatter
      with `title` set to the heading: the comparison only saves a write. */
  lemma ApplyH1TitleSetsTitle(fm: Frontmatter, body: string, h: string)
    requires FirstH1(Lines(body)) == Some(h)
    ensures ApplyH1Title(fm, body) == fm[TitleKey := h]
  {
    if TitleKey in fm && fm[TitleKey] == h {
      assert fm[TitleKey := h] == fm;
    }
  }

  /** Running the update a second time changes nothing. */
  lemma ApplyH1TitleIdempotent(fm: Frontmatter, body: string)
    ensures ApplyH1Title(ApplyH1Title(fm, body), body) == ApplyH1Title(fm, body)
  {
  }

  /** `updateFrontmatterFields` on one note: the heading is looked for in the
      note's text after its frontmatter block has been removed. */
  function NewFrontmatter(fm: Frontmatter, text: string): (r: Frontmatter)
    ensures forall k :: k != TitleKey ==> (k in r <==> k in fm) && (k in r ==> r[k] == fm[k])
  {
    ApplyH1Title(fm, StripFrontmatter(text))
  }

  /** Normalising a note twice is the same as normalising it once. */
  lemma NewFrontmatterIdempotent(fm: Frontmatter, text: string)
    ensures NewFrontmatter(NewFrontmatter(fm, text), text) == NewFrontmatter(fm, text)
  {
    ApplyH1TitleIdempotent(fm, StripFrontmatter(text));
  }
}

=== FILE: pipeline.dfy ===
/** The publish command: resolve the publish root of the active note, normalise
    the title of every file under it, patch Quartz's config, build, copy the
    static assets and report the outcome. */
module Pipeline {
  import opened Text
  import opened Metadata
  import opened Resolver
  import opened Normalizer
  import opened ConfigPatcher
  import opened ProcessRunner

  /** `STATIC_FILES`: assets copied from the publish root into `static/`. */
  const StaticFiles: seq<string> := ["icon.png", "og-image.png"]

  const NoRootNotice := "Unable to find a Quartz publish root folder anywhere in the current note's path"
  const PublishingNotice := "Publishing folder..."
  const SuccessNotice := "Successfully published!"
  const FailureNotice := "Something went wrong :("

  /** A file of the vault with its path and its raw text (`vault.read`). */
  datatype File = File(path: string, text: string)

  /** The active note; `ancestors` is `file.parent`, `file.parent.parent`, ... */
  datatype ActiveFile = ActiveFile(ancestors: seq<Folder>)

  /** The plugin settings: Quartz's install path and the `PATH` for the build. */
  datatype Settings = Settings(quartzPath: string, envPath: string)

  // ---------------------------------------------------------------------------
  // The upload set: getFiles().filter(file => file.path.startsWith(vaultFolder))
  // ---------------------------------------------------------------------------

  function UploadFiles(files: seq<File>, vaultFolder: string): (r: seq<File>)
    ensures forall f :: f in r <==> f in files && StartsWith(f.path, vaultFolder)
    ensures |r| <= |files|
  {
    if files == [] then []
    else (if StartsWith(files[0].path, vaultFolder) then [files[0]] else []) + UploadFiles(files[1..], vaultFolder)
  }

  /** Filtering keeps the listing order: it distributes over concatenation. */
  lemma {:induction false} UploadFilesAppend(a: seq<File>, b: seq<File>, vaultFolder: string)
    ensures UploadFiles(a + b, vaultFolder) == UploadFiles(a, vaultFolder) + UploadFiles(b, vaultFolder)
  {
    if a == [] {
      assert a + b == b;
    } else {
      var head := if StartsWith(a[0].path, vaultFolder) then [a[0]] else [];
      assert (a + b)[0] == a[0];
      assert (a + b)[1..] == a[1..] + b;
      UploadFilesAppend(a[1..], b, vaultFolder);
      calc {
        UploadFiles(a + b, vaultFolder);
        head + UploadFiles(a[1..] + b, vaultFolder);
        head + (UploadFiles(a[1..], vaultFolder) + UploadFiles(b, vaultFolder));
        (head + UploadFiles(a[1..], vaultFolder)) + UploadFiles(b, vaultFolder);
        UploadFiles(a, vaultFolder) + UploadFiles(b, vaultFolder);
      }
    }
  }

  /** A matching file is processed as often as it is listed, any other never. */
  lemma {:induction false} UploadFilesCount(files: seq<File>, vaultFolder: string, f: File)
    ensures multiset(UploadFiles(files, vaultFolder))[f] ==
              if StartsWith(f.path, vaultFolder) then multiset(files)[f] else 0
  {
    if files != [] {
      UploadFilesCount(files[1..], vaultFolder, f);
      assert files == [files[0]] + files[1..];
    }
  }

  /** Membership is a prefix test, not folder containment: a sibling folder whose
      name extends the root's name is published too. */
  lemma SiblingFolderIncluded(vaultFolder: string, rest: string, text: string)
    ensures var f := File(vaultFolder + "2/" + rest, text);
            UploadFiles([f], vaultFolder) == [f] && !StartsWith(f.path, vaultFolder + "/")
  {
    var f := File(vaultFolder + "2/" + rest, text);
    assert f.path[..|vaultFolder|] == vaultFolder;
    assert f.path[|vaultFolder|] == '2';
  }

  // ---------------------------------------------------------------------------
  // Title normalisation over the upload set
  // ---------------------------------------------------------------------------

  /** The frontmatter of a note; a note without one reads as empty. */
  function FrontmatterOf(fms: map<string, Frontmatter>, path: string): Frontmatter {
    if path in fms then fms[path] else map[]
  }

  /** `updateFrontmatterFields` on one file. */
  function NormalizeOne(fms: map<string, Frontmatter>, f: File): map<string, Frontmatter> {
    fms[f.path := NewFrontmatter(FrontmatterOf(fms, f.path), f.text)]
  }

  /** The files processed one after the other, in order. */
  function NormalizeAll(fms: map<string, Frontmatter>, files: seq<File>): map<string, Frontmatter>
    decreases |files|
  {
    if files == [] then fms else NormalizeAll(NormalizeOne(fms, files[0]), files[1..])
  }

  function Paths(files: seq<File>): set<string> {
    set f | f in files :: f.path
  }

  /** Vault paths are unique. */
  predicate DistinctPaths(files: seq<File>) {
    files == [] || (files[0].path !in Paths(files[1..]) && DistinctPaths(files[1..]))
  }

  lemma {:induction false} UploadFilesDistinct(files: seq<File>, vaultFolder: string)
    requires DistinctPaths(files)
    ensures DistinctPaths(UploadFiles(files, vaultFolder))
  {
    if files != [] {
      UploadFilesDistinct(files[1..], vaultFolder);
      var rest := UploadFiles(files[1..], vaultFolder);
      assert Paths(rest) <= Paths(files[1..]);
      assert UploadFiles(files, vaultFolder) == (if StartsWith(files[0].path, vaultFolder) then [files[0]] else []) + rest;
      if StartsWith(files[0].path, vaultFolder) {
        var x := UploadFiles(files, vaultFolder);
        assert x[0] == files[0];
        assert x[1..] == rest;
        assert x[0].path !in Paths(x[1..]) && DistinctPaths(x[1..]);
      } else {
        assert UploadFiles(files, vaultFolder) == rest;
      }
    }
  }

  /** The paths of a listing are its first path plus those of the rest. */
  lemma PathsCons(files: seq<File>)
    requires files != []
    ensures Paths(files) == {files[0].path} + Paths(files[1..])
  {
    assert forall f :: f in files <==> f == files[0] || f in files[1..];
  }

  /** Every processed note ends with its own title update applied to its
      original frontmatter... */
  lemma {:induction false} NormalizeAllUpdates(fms: map<string, Frontmatter>, files: seq<File>, f: File)
    requires DistinctPaths(files) && f in files
    decreases |files|
    ensures f.path in NormalizeAll(fms, files)
    ensures NormalizeAll(fms, files)[f.path] == NewFrontmatter(FrontmatterOf(fms, f.path), f.text)
  {
    var m := NormalizeOne(fms, files[0]);
    assert NormalizeAll(fms, files) == NormalizeAll(m, files[1..]);
    PathsCons(files);
    if f == files[0] {
      NormalizeAllKeepsOthers(m, files[1..], f.path);
    } else {
      assert f in files[1..];
      assert f.path != files[0].path;
      NormalizeAllUpdates(m, files[1..], f);
    }
  }

  /** ...and every other note is untouched. */
  lemma {:induction false} NormalizeAllKeepsOthers(fms: map<string, Frontmatter>, files: seq<File>, p: string)
    requires p !in Paths(files)
    decreases |files|
    ensures p in NormalizeAll(fms, files) <==> p in fms
    ensures p in fms ==> NormalizeAll(fms, files)[p] == fms[p]
  {
    if files != [] {
      PathsCons(files);
      NormalizeAllKeepsOthers(NormalizeOne(fms, files[0]), files[1..], p);
    }
  }

  /** Normalising the same files a second time changes nothing. */
  lemma NormalizeAllIdempotent(fms: map<string, Frontmatter>, files: seq<File>)
    requires DistinctPaths(files)
    ensures NormalizeAll(NormalizeAll(fms, files), files) == NormalizeAll(fms, files)
  {
    var r := NormalizeAll(fms, files);
    var r2 := NormalizeAll(r, files);
    forall p | p in r || p in r2
      ensures p in r && p in r2 && r2[p] == r[p]
    {
      if p in Paths(files) {
        var f :| f in files && f.path == p;
        NormalizeAllUpdates(fms, files, f);
        NormalizeAllUpdates(r, files, f);
        NewFrontmatterIdempotent(FrontmatterOf(fms, p), f.text);
      } else {
        NormalizeAllKeepsOthers(fms, files, p);
        NormalizeAllKeepsOthers(r, files, p);
      }
    }
  }

  // ---------------------------------------------------------------------------
  // The commands
  // ---------------------------------------------------------------------------

  /** `sed -i '<script>' "<quartzPath>/quartz.config.ts"` */
  function SedCommand(md: Frontmatter, settings: Settings): Command {
    Sed(SedScript(md), settings.quartzPath + "/quartz.config.ts")
  }

  /** The build, run in Quartz's directory by bash with the configured `PATH`. */
  function BuildCommand(input: string, output: string, settings: Settings): Command {
    Build(input, output, settings.quartzPath, "/bin/bash", settings.envPath)
  }

  /** The three commands issued unconditionally, in order. */
  function ConfigureAndBuild(root: Root, input: string, settings: Settings): seq<Command> {
    [SedCommand(root.metadata, settings), Mkdir(root.outputFolder), BuildCommand(input, root.outputFolder, settings)]
  }

  /** The asset loop: for each name a `test -f`, then a `cp` only if the test
      succeeded; `history` is everything issued before. */
  function StaticSteps(history: seq<Command>, names: seq<string>, input: string, output: string, world: World): (r: seq<Command>)
    decreases |names|
    ensures |history| + |names| <= |r| <= |history| + 2 * |names|
    ensures r[..|history|] == history
  {
    if names == [] then history
    else
      var path := input + "/" + names[0];
      var test := TestFile(path);
      var next := if Succeeds(world, history, test) then history + [test, Copy(path, output + "/static/")]
                  else history + [test];
      var r := StaticSteps(next, names[1..], input, output, world);
      assert r[..|history|] == r[..|next|][..|history|];
      r
  }

  /** Everything a successful resolution leads `exec` to receive, after `start`. */
  function PublishTrace(start: seq<Command>, root: Root, input: string, settings: Settings, world: World): seq<Command> {
    StaticSteps(start + ConfigureAndBuild(root, input, settings), StaticFiles, input, root.outputFolder, world)
  }

  /** The result of the build `exec`: the only one the final notice reads. */
  predicate BuildSucceeds(start: seq<Command>, root: Root, input: string, settings: Settings, world: World) {
    Succeeds(world, start + [SedCommand(root.metadata, settings), Mkdir(root.outputFolder)],
             BuildCommand(input, root.outputFolder, settings))
  }

  function FinalNotice(published: bool): string {
    if published then SuccessNotice else FailureNotice
  }

  // ---------------------------------------------------------------------------
  // Properties of the command trace
  // ---------------------------------------------------------------------------

  /** Each command of the asset loop is a test or a copy; a copy comes right
      after the test of the same file and only when that test succeeded; a
      succeeding test is always followed by its copy. */
  lemma {:induction false} StaticStepAt(history: seq<Command>, names: seq<string>, input: string, output: string,
                                        world: World, j: nat)
    requires |history| <= j < |StaticSteps(history, names, input, output, world)|
    decreases |names|
    ensures var r := StaticSteps(history, names, input, output, world);
            && (r[j].TestFile? || r[j].Copy?)
            && (r[j].Copy? ==> |history| < j && r[j - 1] == TestFile(r[j].source)
                               && Succeeds(world, r[..j - 1], r[j - 1]) && r[j].destDir == output + "/static/")
            && (r[j].TestFile? ==> (Succeeds(world, r[..j], r[j]) <==> j + 1 < |r| && r[j + 1].Copy?))
  {
    var r := StaticSteps(history, names, input, output, world);
    var path := input + "/" + names[0];
    var test := TestFile(path);
    var copy := Copy(path, output + "/static/");
    var ok := Succeeds(world, history, test);
    var next := if ok then history + [test, copy] else history + [test];
    assert r == StaticSteps(next, names[1..], input, output, world);
    assert r[..|next|] == next;
    if j >= |next| {
      StaticStepAt(next, names[1..], input, output, world, j);
    } else {
      assert r[|history|] == test;
      assert r[..|history|] == history;
      if j == |history| {
        if ok {
          assert r[j + 1] == copy;
        } else if |next| < |r| {
          StaticStepAt(next, names[1..], input, output, world, |next|);
        }
      } else {
        assert ok && j == |history| + 1 && r[j] == copy;
      }
    }
  }

  /** The asset loop tests the files in list order, one test per name. */
  function TestedPaths(cs: seq<Command>): seq<string> {
    if cs == [] then []
    else (if cs[0].TestFile? then [cs[0].path] else []) + TestedPaths(cs[1..])
  }

  /** The tested paths of a concatenated trace are those of each part, in order. */
  lemma {:induction false} TestedPathsAppend(a: seq<Command>, b: seq<Command>)
    ensures TestedPaths(a + b) == TestedPaths(a) + TestedPaths(b)
  {
    if a == [] {
      assert a + b == b;
    } else {
      var head := if a[0].TestFile? then [a[0].path] else [];
      assert (a + b)[0] == a[0];
      assert (a + b)[1..] == a[1..] + b;
      TestedPathsAppend(a[1..], b);
      calc {
        TestedPaths(a + b);
        head + TestedPaths(a[1..] + b);
        head + (TestedPaths(a[1..]) + TestedPaths(b));
        (head + TestedPaths(a[1..])) + TestedPaths(b);
        TestedPaths(a) + TestedPaths(b);
      }
    }
  }

  function AssetPaths(input: string, names: seq<string>): (r: seq<string>)
    ensures |r| == |names| && forall i :: 0 <= i < |names| ==> r[i] == input + "/" + names[i]
  {
    if names == [] then [] else [input + "/" + names[0]] + AssetPaths(input, names[1..])
  }

  lemma {:induction false} StaticStepsTestsInOrder(history: seq<Command>, names: seq<string>, input: string,
                                                   output: string, world: World)
    decreases |names|
    ensures var r := StaticSteps(history, names, input, output, world);
            TestedPaths(r[|history|..]) == AssetPaths(input, names)
  {
    var r := StaticSteps(history, names, input, output, world);
    if names != [] {
      var path := input + "/" + names[0];
      var test := TestFile(path);
      var next := if Succeeds(world, history, test) then history + [test, Copy(path, output + "/static/")]
                  else history + [test];
      StaticStepsTestsInOrder(next, names[1..], input, output, world);
      assert r == StaticSteps(next, names[1..], input, output, world);
      assert r[|history|..] == next[|history|..] + r[|next|..] by {
        assert r[..|next|] == next;
      }
      TestedPathsAppend(next[|history|..], r[|next|..]);
      assert TestedPaths(next[|history|..]) == [path] by {
        var tail := next[|history|..];
        assert tail[0] == test;
        assert tail[1..] == [] || tail[1..] == [Copy(path, output + "/static/")];
      }
    }
  }

  /** A successful resolution issues the sed patch, `mkdir -p`, the build, then
      only tests and copies, each copy right after the test of its own path; the
      first three do not depend on how any command completes. */
  lemma PublishTraceOrder(start: seq<Command>, root: Root, input: string, settings: Settings, world: World)
    ensures var r := PublishTrace(start, root, input, settings, world);
            && r[..|start|] == start
            && r[|start|] == Sed(SedScript(root.metadata), settings.quartzPath + "/quartz.config.ts")
            && r[|start| + 1] == Mkdir(root.outputFolder)
            && r[|start| + 2] == Build(input, root.outputFolder, settings.quartzPath, "/bin/bash", settings.envPath)
            && |start| + 3 + |StaticFiles| <= |r| <= |start| + 3 + 2 * |StaticFiles|
            && (forall j :: |start| + 3 <= j < |r| ==> r[j].TestFile? || r[j].Copy?)
            && (forall j :: |start| + 3 <= j < |r| && r[j].Copy? ==>
                  r[j - 1] == TestFile(r[j].source) && r[j].destDir == root.outputFolder + "/static/")
            && TestedPaths(r[|start| + 3..]) == AssetPaths(input, StaticFiles)
  {
    var h := start + ConfigureAndBuild(root, input, settings);
    var r := PublishTrace(start, root, input, settings, world);
    assert r[..|h|] == h;
    assert r[..|start|] == h[..|start|];
    assert r[|start|] == h[|start|] && r[|start| + 1] == h[|start| + 1] && r[|start| + 2] == h[|start| + 2];
    forall j | |h| <= j < |r|
      ensures r[j].TestFile? || r[j].Copy?
      ensures r[j].Copy? ==> r[j - 1] == TestFile(r[j].source) && r[j].destDir == root.outputFolder + "/static/"
    {
      StaticStepAt(h, StaticFiles, input, root.outputFolder, world, j);
    }
    StaticStepsTestsInOrder(h, StaticFiles, input, root.outputFolder, world);
  }

  /** The final notice reports success exactly when the build `exec` did, however
      the patch, `mkdir`, tests and copies went. */
  lemma NoticeFollowsBuildOnly(start: seq<Command>, root: Root, input: string, settings: Settings, w1: World, w2: World)
    requires var h := start + [SedCommand(root.metadata, settings), Mkdir(root.outputFolder)];
             var b := BuildCommand(input, root.outputFolder, settings);
             w1(h, b).error == w2(h, b).error
    ensures FinalNotice(BuildSucceeds(start, root, input, settings, w1)) == FinalNotice(BuildSucceeds(start, root, input, settings, w2))
  {
  }

  /** The sed script travels intact inside the single quotes of its command line. */
  lemma SedLineKeepsScript(md: Frontmatter, settings: Settings)
    ensures QuotedWord(Line(SedCommand(md, settings))[|"sed -i '"|..]) == SedScript(md)
  {
    var script := SedScript(md);
    var tail := " \"" + settings.quartzPath + "/quartz.config.ts" + "\"";
    var word := script + "'" + tail;
    SedScriptQuoteFree(md);
    assert Line(SedCommand(md, settings)) == "sed -i '" + word;
    assert ("sed -i '" + word)[|"sed -i '"|..] == word;
    QuotedWordOf(script, tail);
  }

  // ---------------------------------------------------------------------------
  // The plugin
  // ---------------------------------------------------------------------------

  /** The vault: the file listing (`vault.getFiles()`) and each note's frontmatter,
      which the publish command rewrites in place. */
  class Vault {
    const files: seq<File>
    var frontmatter: map<string, Frontmatter>

    constructor (files: seq<File>, frontmatter: map<string, Frontmatter>)
      ensures this.files == files && this.frontmatter == frontmatter
    {
      this.files := files;
      this.frontmatter := frontmatter;
    }
  }

  /** The plugin with its settings; `trace` records every command given to
      `exec` and `notices` every notice shown. */
  class Plugin {
    var settings: Settings
    var trace: seq<Command>
    var notices: seq<string>

    constructor (settings: Settings)
      ensures this.settings == settings && trace == [] && notices == []
    {
      this.settings := settings;
      trace := [];
      notices := [];
    }

    /** `exec`: resolves to true exactly when the callback got no error. */
    method Exec(c: Command, world: World) returns (ok: bool)
      modifies this`trace
      ensures trace == old(trace) + [c]
      ensures ok <==> !world(old(trace), c).error
    {
      var completion := world(trace, c);
      trace := trace + [c];
      ok := !completion.error;
    }

    /** `updateFrontmatterFields`: strip the block, find the first H1, and set
        `title` in the note's frontmatter when it differs. */
    method UpdateFrontmatterFields(vault: Vault, file: File)
      modifies vault
      ensures vault.frontmatter == NormalizeOne(old(vault.frontmatter), file)
    {
      var body := StripFrontmatter(file.text);
      var frontmatter := FrontmatterOf(vault.frontmatter, file.path);
      var match1 := FirstH1(Lines(body));
      if match1.Some? && !(TitleKey in frontmatter && frontmatter[TitleKey] == match1.value) {
        frontmatter := frontmatter[TitleKey := match1.value];
      }
      vault.frontmatter := vault.frontmatter[file.path := frontmatter];
    }

    /** The upload loop of the callback: every file to upload, in order. */
    method UpdateUploadFiles(vault: Vault, uploadFiles: seq<File>)
      modifies vault
      ensures vault.frontmatter == NormalizeAll(old(vault.frontmatter), uploadFiles)
    {
      for i := 0 to |uploadFiles|
        invariant NormalizeAll(vault.frontmatter, uploadFiles[i..]) == NormalizeAll(old(vault.frontmatter), uploadFiles)
      {
        assert uploadFiles[i..][1..] == uploadFiles[i + 1..];
        UpdateFrontmatterFields(vault, uploadFiles[i]);
      }
    }

    /** Patch the config, create the output folder and build: three `exec`
        calls whatever their outcome; only the build's result is kept. */
    method ConfigureAndBuildRoot(root: Root, inputFolder: string, world: World) returns (published: bool)
      modifies this`trace
      ensures trace == old(trace) + ConfigureAndBuild(root, inputFolder, settings)
      ensures published == BuildSucceeds(old(trace), root, inputFolder, settings, world)
    {
      var patched := Exec(SedCommand(root.metadata, settings), world);
      var created := Exec(Mkdir(root.outputFolder), world);
      assert trace == old(trace) + [SedCommand(root.metadata, settings), Mkdir(root.outputFolder)];
      published := Exec(BuildCommand(inputFolder, root.outputFolder, settings), world);
    }

    /** The asset loop of the callback: `test -f` each static file of the
        publish root and `cp` it into `static/` of the output when present. */
    method CopyStaticFiles(inputFolder: string, outputFolder: string, world: World)
      modifies this`trace
      ensures trace == StaticSteps(old(trace), StaticFiles, inputFolder, outputFolder, world)
    {
      for k := 0 to |StaticFiles|
        invariant StaticSteps(trace, StaticFiles[k..], inputFolder, outputFolder, world)
                  == StaticSteps(old(trace), StaticFiles, inputFolder, outputFolder, world)
      {
        ghost var before := trace;
        assert StaticFiles[k..][0] == StaticFiles[k];
        assert StaticFiles[k..][1..] == StaticFiles[k + 1..];
        var filePath := inputFolder + "/" + StaticFiles[k];
        var present := Exec(TestFile(filePath), world);
        if present {
          var copied := Exec(Copy(filePath, outputFolder + "/static/"), world);
          assert trace == before + [TestFile(filePath), Copy(filePath, outputFolder + "/static/")];
        }
      }
    }

    /** The rest of the callback after the upload loop: patch and build, copy
        the assets, and report the build's outcome. */
    method BuildAndReport(root: Root, inputFolder: string, world: World)
      modifies this`trace, this`notices
      ensures trace == PublishTrace(old(trace), root, inputFolder, settings, world)
      ensures notices == old(notices) + [FinalNotice(BuildSucceeds(old(trace), root, inputFolder, settings, world))]
    {
      var published := ConfigureAndBuildRoot(root, inputFolder, world);
      CopyStaticFiles(inputFolder, root.outputFolder, world);
      notices := notices + [FinalNotice(published)];
    }

    /** The publish command's callback. */
    method Publish(active: Option<ActiveFile>, vault: Vault, fullPath: string -> string, world: World)
      modifies this`trace, this`notices, vault
      ensures active.None? ==>
                trace == old(trace) && notices == old(notices) && vault.frontmatter == old(vault.frontmatter)
      ensures active.Some? && Resolve(active.value.ancestors).None? ==>
                && trace == old(trace)
                && vault.frontmatter == old(vault.frontmatter)
                && notices == old(notices) + [NoRootNotice]
      ensures active.Some? && Resolve(active.value.ancestors).Some? ==>
                var root := Resolve(active.value.ancestors).value;
                var input := fullPath(root.vaultFolder);
                && vault.frontmatter == NormalizeAll(old(vault.frontmatter), UploadFiles(vault.files, root.vaultFolder))
                && trace == PublishTrace(old(trace), root, input, settings, world)
                && notices == old(notices) + [PublishingNotice, FinalNotice(BuildSucceeds(old(trace), root, input, settings, world))]
    {
      if active.None? {
        return;
      }
      var found := ResolveRoot(active.value.ancestors);
      if found.None? {
        notices := notices + [NoRootNotice];
        return;
      }
      var inputFolder := fullPath(found.value.vaultFolder);
      notices := notices + [PublishingNotice];
      UpdateUploadFiles(vault, UploadFiles(vault.files, found.value.vaultFolder));
      BuildAndReport(found.value, inputFolder, world);
    }
  }
}

=== FILE: process_runner.dfy ===
/** The commands the publish command hands to `exec`, and the outside world that
    answers them. Neither the shell nor the programs it runs are modelled: a
    command is recorded, rendered to the exact line `exec` receives, and its
    completion is whatever the world says. */
module ProcessRunner {

  /** Every kind of command the publish command issues. */
  datatype Command =
    | Sed(script: string, configFile: string)
    | Mkdir(dir: string)
    | Build(input: string, output: string, cwd: string, shell: string, pathEnv: string)
    | TestFile(path: string)
    | Copy(source: string, destDir: string)

  /** The command line passed to `exec`. */
  function Line(c: Command): string {
    match c
    case Sed(script, configFile) => "sed -i '" + script + "' \"" + configFile + "\""
    case Mkdir(dir) => "mkdir -p " + dir
    case Build(input, output, _, _, _) => "npx quartz build --directory \"" + input + "\" --output \"" + output + "\""
    case TestFile(path) => "test -f \"" + path + "\""
    case Copy(source, destDir) => "cp \"" + source + "\" \"" + destDir + "\""
  }

  /** The arguments of the `exec` callback: `error` is true when the callback
      received an error (non-zero exit or a process that failed to start). */
  datatype Completion = Completion(error: bool, stdout: string, stderr: string)

  /** The outside world: how a command completes, given every command issued before it. */
  type World = (seq<Command>, Command) -> Completion

  /** The boolean `exec` resolves to: true exactly when no error was reported. */
  predicate Succeeds(world: World, history: seq<Command>, c: Command) {
    !world(history, c).error
  }

  /** The text a shell takes as a single-quoted word: everything up to the next `'`. */
  function QuotedWord(s: string): (w: string)
    ensures w <= s
    ensures forall i :: 0 <= i < |w| ==> w[i] != '\''
    ensures |w| < |s| ==> s[|w|] == '\''
  {
    if s == [] || s[0] == '\'' then "" else [s[0]] + QuotedWord(s[1..])
  }

  /** A word without `'` followed by `'` is read back whole, whatever follows. */
  lemma {:induction false} QuotedWordOf(w: string, tail: string)
    requires forall i :: 0 <= i < |w| ==> w[i] != '\''
    ensures QuotedWord(w + "'" + tail) == w
  {
    if w != [] {
      assert (w + "'" + tail)[1..] == w[1..] + "'" + tail;
      QuotedWordOf(w[1..], tail);
    }
  }
}

=== FILE: resolver.dfy ===
/** The publish-root resolver: the walk up the active note's folders looking
    for an `index.md` whose frontmatter names a Quartz output folder. */
module Resolver {
  import opened Text
  import opened Metadata

  const PublishFolderKey := "quartzPublishFolder"

  /** One ancestor folder of the active note. `index` is the frontmatter of
      the folder's `index.md` when that note exists, `None` when it does not. */
  datatype Folder = Folder(path: string, index: Option<Frontmatter>)

  /** A resolved publish root: the vault folder to publish, the output folder
      and the frontmatter of the index note that declared them. */
  datatype Root = Root(vaultFolder: string, outputFolder: string, metadata: Frontmatter)

  /** `value.replace(/\/$/, '')`: drops one `/` at the very end, if any. */
  function StripTrailingSlash(s: string): (r: string)
    ensures |s| - 1 <= |r| <= |s| && r <= s
  {
    if |s| > 0 && s[|s| - 1] == '/' then s[..|s| - 1] else s
  }

  /** Stripping undoes exactly one appended slash... */
  lemma StripTrailingSlashRemovesOne(t: string)
    ensures StripTrailingSlash(t + "/") == t
  {
    assert (t + "/")[..|t|] == t;
  }

  /** ...and leaves every string that does not end in `/` alone. */
  lemma StripTrailingSlashKeepsOthers(s: string)
    requires s == [] || s[|s| - 1] != '/'
    ensures StripTrailingSlash(s) == s
  {
  }

  /** `"/"` strips to the empty string, so a root declared as `/` does not qualify. */
  lemma SlashAloneIsEmpty()
    ensures StripTrailingSlash("/") == ""
  {
  }

  /** The output folder a folder's index note declares, or `""` when the folder
      has no index note or the note has no (or an empty) `quartzPublishFolder`. */
  function OutputFolderOf(f: Folder): string {
    match f.index
    case None => ""
    case Some(fm) => if PublishFolderKey in fm then StripTrailingSlash(fm[PublishFolderKey]) else ""
  }

  /** A folder is a publish root when its declared output folder is non-empty after stripping. */
  predicate Qualifies(f: Folder) {
    OutputFolderOf(f) != ""
  }

  /** The position of the nearest qualifying folder in `chain` (nearest first). */
  function FirstQualifying(chain: seq<Folder>): (k: Option<nat>)
    ensures k.Some? ==> k.value < |chain| && Qualifies(chain[k.value])
    ensures k.Some? ==> forall j :: 0 <= j < k.value ==> !Qualifies(chain[j])
    ensures k.None? <==> forall j :: 0 <= j < |chain| ==> !Qualifies(chain[j])
  {
    if chain == [] then None
    else if Qualifies(chain[0]) then Some(0)
    else match FirstQualifying(chain[1..])
      case None => None
      case Some(k) => Some(k + 1)
  }

  /** What the walk returns: the root at the nearest qualifying folder, if any. */
  function Resolve(chain: seq<Folder>): Option<Root> {
    match FirstQualifying(chain)
    case None => None
    case Some(k) => Some(Root(chain[k].path, OutputFolderOf(chain[k]), chain[k].index.value))
  }

  /** The walk of src/main.ts: from the nearest folder upwards, stop at the first
      folder whose index note yields a non-empty output folder. */
  method ResolveRoot(chain: seq<Folder>) returns (r: Option<Root>)
    ensures r == Resolve(chain)
    ensures r.None? <==> forall j :: 0 <= j < |chain| ==> !Qualifies(chain[j])
    ensures r.Some? ==> exists k :: 0 <= k < |chain| && Qualifies(chain[k])
                                    && (forall j :: 0 <= j < k ==> !Qualifies(chain[j]))
                                    && r.value == Root(chain[k].path, OutputFolderOf(chain[k]), chain[k].index.value)
  {
    var vaultFolder := "";
    var outputFolder := "";
    var metadata: Option<Frontmatter> := None;
    var i := 0;
    while i < |chain| && outputFolder == ""
      invariant 0 <= i <= |chain|
      invariant outputFolder == ""
      invariant forall j :: 0 <= j < i ==> !Qualifies(chain[j])
    {
      var parent := chain[i];
      if parent.index.Some? {
        metadata := parent.index;
        var fm := parent.index.value;
        outputFolder := if PublishFolderKey in fm then StripTrailingSlash(fm[PublishFolderKey]) else "";
      }
      if outputFolder != "" {
        vaultFolder := parent.path;
        break;
      }
      i := i + 1;
    }
    if outputFolder == "" {
      return None;
    }
    assert Qualifies(chain[i]) && metadata == chain[i].index;
    return Some(Root(vaultFolder, outputFolder, metadata.value));
  }

  /** A nearest folder that does not qualify (no index note, no `quartzPublishFolder`,
      or one that strips to `""`) is passed over: the walk continues upward. */
  lemma NonQualifyingFolderSkipped(chain: seq<Folder>)
    requires chain != [] && !Qualifies(chain[0])
    ensures Resolve(chain) == Resolve(chain[1..])
  {
  }

  /** Folders beyond the nearest qualifying one never influence the result. */
  lemma ResolveIgnoresFartherFolders(chain: seq<Folder>, k: nat, farther: seq<Folder>)
    requires FirstQualifying(chain) == Some(k)
    ensures Resolve(chain[..k + 1] + farther) == Resolve(chain)
  {
    var c := chain[..k + 1] + farther;
    assert forall j :: 0 <= j <= k ==> c[j] == chain[j];
    FirstQualifyingAt(c, k);
  }

  /** The nearest qualifying folder is the one `FirstQualifying` names. */
  lemma {:induction false} FirstQualifyingAt(chain: seq<Folder>, k: nat)
    requires k < |chain| && Qualifies(chain[k]) && forall j :: 0 <= j < k ==> !Qualifies(chain[j])
    ensures FirstQualifying(chain) == Some(k)
  {
    if k > 0 {
      var rest := chain[1..];
      assert rest[k - 1] == chain[k];
      assert forall j :: 0 <= j < k - 1 ==> rest[j] == chain[j + 1];
      FirstQualifyingAt(rest, k - 1);
    }
  }
}

=== FILE: text.dfy ===
/** Small vocabulary shared by every part of the publish command. */
module Text {

  datatype Option<+T> = None | Some(value: T)

  /** The characters JavaScript regular expressions treat as line terminators
      (LF, CR, LINE SEPARATOR, PARAGRAPH SEPARATOR): `.` does not match them
      without the `s` flag, and `^`/`$` with the `m` flag match beside them. */
  predicate IsLineTerminator(c: char) {
    c == '\n' || c == '\r' || c == '\U{2028}' || c == '\U{2029}'
  }

  /** `s.startsWith(p)`. */
  predicate StartsWith(s: string, p: string) {
    p <= s
  }
}

/** Note metadata as the host's metadata cache and `processFrontMatter` expose it. */
module Metadata {

  /** A frontmatter object; only string-valued properties are modelled. */
  type Frontmatter = map<string, string>

  /** `fm?.key || ''`: a missing key reads as the empty string. */
  function Field(fm: Frontmatter, key: string): string {
    if key in fm then fm[key] else ""
  }
}
